=== FILE: README.md ===
# go-ipld-legacy adapter core, modelled in Dafny

This project models the core of the adapter that lets typed IPLD nodes be used through the older path-resolution interface. It has two parts:

- **Codec dispatch decoder.** The codec table maps a codec code to a (prototype, converter) pair. `RegisterCodec` installs an entry, and the last writer wins. `DecodeNode` works in four steps:
  1. It reads the codec code from the block's own CID.
  2. It picks the registered prototype, or `basicnode.Prototype.Any` when the code has no entry.
  3. It asks the link system to load the block's own link.
  4. It returns the load error unchanged, or the registered converter's result as it is, or the default `LegacyNode{b, nd}`.
- **Legacy node traversal.**
  - `Resolve` consumes path segments. A map is entered by key and a list by decimal index. It stops at a link, handing back the link and every unconsumed segment. Going on past a scalar fails, naming the path to the scalar. An exhausted path converts the current subtree to plain values; nested links become `{"/": <cid string>}`.
  - `Tree` lists the descendant paths of the node at a start path. The listing is in pre-order: map keys in stored order, list elements by decimal index, links as leaves. Names are `/`-joined below the first level, and a negative depth means unlimited.

Modules, leaf to root:

- `Wrappers` (`wrappers.dfy`): `Option` and `Result`.
- `Ipld` (`ipld.dfy`): `Cid` (an opaque identifier with a codec code), `Block`, and the closed `Node` kinds (map with ordered entries, list, link, null, bool, int, string, bytes).
- `Segments` (`segments.dfy`): decimal list-index names and '/'-separated paths, with their round trips.
- `Legacy` (`legacy.dfy`): `LegacyNode`, plain values, `Walk`, `Resolve`, `ToPlain`, `TreePaths` and `Tree`, with the lemmas that tie them together.
- `Decode` (`decode.dfy`): the codec table as an explicit `map<Codec, Entry>` value, `RegisterCodec` and `DecodeNode`.
- `LegacyNodeTests` (`legacynode_tests.dfy`): every case of `TestResolve` and `TestTree`, stated as a lemma over a hand-built test tree. Every part of the tree the cases do not observe is a parameter: the CIDs, the value under "bar", the other list elements, the other root entries and where they sit around "plain" and "linkedMap", and the blocks. Two orders are fixed: the middle map's keys, which the tree cases observe, and "plain" ahead of "linkedMap" in the root, which no resolve case observes (both keys are looked up by name).

External collaborators are parameters:

- The link system's `Load` is a function `(Cid, Prototype) -> Result<Node, E>`. The `cidlink.Link` wrapper is the CID itself, and the always-empty `LinkContext` is dropped.
- Converters are functions `(Block, Node) -> Result<UniversalNode<U>, E>`. `U` stands for whatever codec-specific node a converter builds.
- Errors from the loader and converters are an arbitrary type `E`, so "returned verbatim" is plain equality of values.

The file that implements `LegacyNode.Resolve` and `Tree` (node.go) is not part of this model. Their behaviour here is a reference model fixed by the cases in node_test.go:

- `Walk` checks for a link before checking whether the path is used up. Checking for an exhausted path first would turn list element 2 into the `{"/": …}` map, but the "resolves array" case (node_test.go:51-55) expects a `format.Link`.
- node_test.go has no case with depth 0. Here depth 0 lists nothing (see Left out).

## Model

| member | source | states |
|---|---|---|
| `Decode.RegisterCodec` | decode.go:28-30 | afterwards the code's entry is exactly the new (prototype, converter); every other code keeps its entry; the key set gains only that code |
| `Decode.RegisterCodecLastWins` | decode.go:28-30 | registering a code twice is the same as registering only the later pair |
| `Decode.RegisterCodecCommutes` | decode.go:25-30 | registrations of two different codes give the same table in either order |
| `Decode.Lookup` | decode.go:37 | an entry comes back exactly when the code is in the table, and it is that code's entry |
| `Decode.LoadPrototype` | decode.go:36-40 | the prototype is `Any` for an unregistered code and the registered prototype otherwise |
| `Decode.DecodeNode` | decode.go:32-50 | unregistered code: the load with `Any` fails with its own error, or the result is the default adapter around the block and the loaded node; registered code: the load with the registered prototype fails with its own error, or the result is exactly the converter's |
| `Decode.DecodeConsultsOneLoad` | decode.go:34-41 | the loader is consulted only for the block's own CID with the chosen prototype: loaders that agree there decode alike |
| `Decode.DecodeAfterRegister` | decode.go:37-48 | after registering (p, f) for the block's code, the block is loaded with p and the result is f's, or the load error |
| `Decode.DecodeOtherCodecUnaffected` | decode.go:37 | registering a different code does not change how a block decodes |
| `Decode.DecodeLoadErrorSkipsConverter` | decode.go:41-44 | when the load fails the result is that load error, whatever converter is registered |
| `Decode.DecodeSentinelError` | decode.go:46-48 | a converter that always fails with a sentinel error makes decode fail with exactly that error once the load succeeds |
| `Decode.DecodeUnregisteredIsDefault` | decode.go:49 | an unregistered code with a successful load never fails; the result is the default adapter, and resolving through it sees exactly the loaded node |
| `Segments.NatToString` | node_test.go:101-106 | a list index is named by a canonical numeral whose first digit is '0' only for index 0 |
| `Segments.ParseIndex` | node_test.go:51-55 | a segment is read as an index exactly when it is a canonical decimal numeral |
| `Segments.DigitsValueOfNatToString` | node_test.go:51-55 | reading an index's printed name gives the index back |
| `Segments.NatToStringOfDigitsValue` | node_test.go:51-55 | printing the value of a canonical numeral gives the numeral back |
| `Segments.ParseIndexIff` | node_test.go:51-55 | a segment selects index k if and only if it is k's own printed name |
| `Segments.Split` | node_test.go:119-124 | a path string splits into one more piece than it has '/' characters, and no piece contains '/' |
| `Segments.JoinSplit` | node_test.go:113-118 | joining the pieces of a split with '/' gives the string back |
| `Segments.SplitJoin` | node_test.go:113-118 | splitting the '/'-join of slash-free segments gives the segments back |
| `Legacy.KeyIndexFirst` | node_test.go:35-60 | an entry whose key no earlier entry has is the one a key segment selects |
| `Legacy.KeyIndex` | node_test.go:56-60 | finds the first entry with the key, and says none when no entry has it |
| `Legacy.Walk` | node_test.go:35-70 | a walk that stops at a link hands back a suffix of the path; a walk that ends at a node ends at a non-link; a failure names the consumed prefix and the failing segment |
| `Legacy.ToPlain` | node_test.go:61-70 | the plain value contains no link reference; a link becomes `{"/": <cid string>}`; maps keep their keys and lists keep their length |
| `Legacy.PlainReadsBackUnlinked` | node_test.go:61-70 | reading any converted subtree back gives the subtree with each link replaced, in place, by its `{"/": <cid string>}` map, and nothing else changed |
| `Legacy.UnlinkedLinkFree` | node_test.go:61-70 | a subtree with no links is left as it is by that replacement |
| `Legacy.Resolve` | node_test.go:72-83 | the remaining segments are a suffix of the path; segments remain only when the value is a link; an empty path on a non-link converts the whole node; it fails exactly when the walk fails, with an error naming the consumed path and the failing segment |
| `Legacy.TreePaths` | node_test.go:101-124 | every listed path has at least one segment and at most `depth` when the depth is not negative |
| `Legacy.WalkAppend` | node_test.go:45-50 | walking `p + q` is walking `p` then `q`: failures persist, and a link reached by `p` keeps `q` among its remaining segments |
| `Legacy.ResolveRelative` | node_test.go:56-70 | resolving `p + q`, where `p` reaches a node, succeeds exactly when resolving `q` from that node does, with the same value and remaining segments |
| `Legacy.ResolveReached` | node_test.go:35-39 | a path used up at a node that is not a link resolves to that node's plain form with nothing remaining |
| `Legacy.ResolveStopsAtLink` | node_test.go:45-50 | once a prefix reaches a link, resolving any extension returns that link and exactly the rest of the path |
| `Legacy.ResolvePastScalar` | node_test.go:40-44 | continuing past a scalar fails with `NoLinksToResolve` naming the path that led to the scalar |
| `Legacy.ChildOfMap` | node_test.go:56-60 | in a map with distinct keys, a key selects its own value |
| `Legacy.ChildOfList` | node_test.go:51-55 | an in-range index's decimal name selects that element |
| `Legacy.TreePathsSound` | node_test.go:113-118 | every listed path resolves with nothing left over, and its segments are '/'-free when the keys are |
| `Legacy.TreePathsComplete` | node_test.go:113-118 | every non-empty path within the depth that resolves with nothing left over is listed |
| `Legacy.TreePathsIff` | node_test.go:101-124 | a path is listed if and only if it is non-empty, within the depth bound, and resolves with nothing left over; links are therefore leaves |
| `Legacy.TreePathsDepthOne` | node_test.go:107-112 | at depth 1 exactly the direct children are listed, by bare name, in stored order |
| `Legacy.TreePathsParentFirst` | node_test.go:113-118 | a path of two or more segments is listed after its parent path |
| `Legacy.ChildIndexOfName` | node_test.go:101-112 | on distinct keys, the name under which child `i` is listed selects position `i` again |
| `Legacy.PreOrderAsymmetric` | node_test.go:113-118 | the pre-order on paths is asymmetric: no path is both before and after another |
| `Legacy.ListingFromHeads` | node_test.go:107-118 | every path listed from child `i` on starts by selecting child `i` or a later child |
| `Legacy.TreePathsOrdered` | node_test.go:113-118 | every listed path is before every path listed after it in pre-order: a parent precedes its descendants, a child's whole subtree precedes the next child, and children keep their stored order |
| `Legacy.TreePathsInPreOrder` | node_test.go:113-118 | the whole listing is in pre-order |
| `Legacy.TreePathsDistinct` | node_test.go:113-118 | no path is listed twice |
| `Legacy.PreOrderUnique` | node_test.go:113-118 | two pre-ordered sequences with the same members are the same sequence |
| `Legacy.TreePathsUnique` | node_test.go:101-118 | any pre-ordered sequence of exactly the non-empty, depth-bounded paths that resolve with nothing left over is the listing; with `TreePathsIff` this fixes the listing exactly |
| `Legacy.LandsRelative` | node_test.go:119-124 | walking on from the node a start path reaches is the same as walking the joined path from the root |
| `Legacy.JoinAllMember` | node_test.go:113-118 | for '/'-free segments, a name is among the joined paths exactly when its split is among the paths |
| `Legacy.Tree` | node_test.go:119-131 | when the start path reaches a node with distinct, '/'-free keys, there is one name per listed path and each name splits back into the path listed at the same position, so the names carry the listing's members and order |
| `Legacy.TreePathsSplitBack` | node_test.go:113-118 | on '/'-free keys every '/'-joined listing name splits back into its path |
| `Legacy.TreeInPreOrder` | node_test.go:113-131 | `Tree`'s names, split into segments, are in pre-order below the node the start path reaches |
| `Legacy.TreeNames` | node_test.go:119-124 | a name is in `Tree(path, depth)` if and only if the start path plus the name's segments resolves from the root with nothing left over, within the depth bound |
| `Legacy.PlainRoundTrip` | node_test.go:61-70 | on a link-free subtree, conversion to plain values loses nothing: reading it back gives the same node |
| `LegacyNodeTests.ResolvesPlainString` | node_test.go:35-39 | when no earlier root entry has the key, `["plain"]` on the root gives "olde string" with nothing remaining |
| `LegacyNodeTests.ErrorsOnPathBeyondTerminalType` | node_test.go:40-44 | when no earlier root entry has the key, `["plain", "old"]` fails with `NoLinksToResolve` at `["plain"]` |
| `LegacyNodeTests.StopsAtLinkWithRemaining` | node_test.go:45-50 | when no earlier root entry has the key, `["linkedMap", "foo"]` gives the middle map's link with `["foo"]` remaining |
| `LegacyNodeTests.ResolvesArray` | node_test.go:51-55 | `["2"]` on the middle list gives leaf beta's link |
| `LegacyNodeTests.ResolvesOtherTypes` | node_test.go:56-60 | `["foo"]` on the middle map gives `true` |
| `LegacyNodeTests.ResolvesComplexTypes` | node_test.go:61-70 | `["nested"]` gives the plain map with "alink" as `{"/": leaf alpha's string}` and "nonlink" as "zoo" |
| `LegacyNodeTests.TreeResolvesArray` | node_test.go:101-106 | the 4-element list lists `["0", "1", "2", "3"]` when its other elements have no children |
| `LegacyNodeTests.TreeResolveToDepth` | node_test.go:107-112 | at depth 1 the middle map lists `["foo", "bar", "nested"]`, whatever "bar" holds |
| `LegacyNodeTests.TreeResolveNested` | node_test.go:113-118 | unlimited depth lists `["foo", "bar", "nested", "nested/alink", "nested/nonlink"]` when "bar" has no children |
| `LegacyNodeTests.TreeResolvesWithStartingPath` | node_test.go:119-124 | from start path "nested" the listing is `["alink", "nonlink"]` |

## Left out

- The link system's `Load`, codec byte parsing, and CID and multihash internals are foreign calls. The loader is a function parameter, and the CID is an opaque value with a codec code and a string form.
- The `UniversalNode` interface embedding (decode.go:11-15) is Go interface satisfaction with no behaviour. It is modelled as a two-case datatype: the default adapter, or a converter's own value.
- The process-wide `codecTable` (decode.go:25) and data races on it are left out. The table is an explicit value that `RegisterCodec` returns and `DecodeNode` takes.
- Float scalars are left out. node_test.go has no case with a float.
- Integer scalars are unbounded. The int64 width of the node library is not modelled.
- `Legacy.ToPlain`: a plain map in the program is a Go `map[string]interface{}` (node_test.go:64), which has no key order, and `require.Equal` (node_test.go:77) compares it regardless of order. Only the set of (key, value) pairs of a `PMap` corresponds to the program's plain map; the key order that `ToPlain` and `Legacy.PlainRoundTrip` keep belongs to the model's sequence representation.
- `Decode.DecodeNode`: a nil converter is accepted by `RegisterCodec` (decode.go:28-29), and decode.go:47 would then panic after a successful load. A converter may also return a node and an error together (decode.go:18), and decode.go:47 passes both through. A converter here is a total function returning either a node or an error, so it can represent neither case.
- Exact Go error strings are left out, and so is testify's nil-versus-empty distinction for the remaining path. Errors are a datatype carrying the consumed path and the failing segment; "nothing remaining" is the empty sequence.
- `Legacy.Resolve`: missing map keys, non-numeric list segments and out-of-range list segments give `NoSuchKey`, `InvalidIndex` and `IndexOutOfRange`. node_test.go has no case with a missing key or a bad index. `Resolve`'s contract says only that it fails exactly when `Walk` fails, and that the error names the consumed path and the failing segment. List segments are read as canonical decimal numerals only: no sign and no leading zero. Whether node.go accepts other forms is not part of this model.
- `Legacy.Tree`: node_test.go has no case with depth 0, depth greater than 1, or a start path that does not lead to a node. Here depth 0 lists nothing, depth d > 0 lists paths of at most d segments, and a bad start path lists nothing.
- The `testutil` fixture construction is not part of this model. `LegacyNodeTests.Fixture` fixes the shapes the cases observe, plus "plain" ahead of "linkedMap" in the root.
- The other `format.Node` methods of `LegacyNode` (links, stat, copy, raw data) are not part of this model.

=== FILE: decode.dfy ===
/** The codec dispatch decoder: a table from codec code to the prototype to
    load with and the converter that wraps the loaded node, and the decode
    procedure that consults it. The table is an explicit value here rather
    than process-wide mutable state. */
module Decode {
  import opened Wrappers
  import opened Ipld
  import opened Legacy

  /** A node prototype handed to the loader: the generic catch-all one
      (`basicnode.Prototype.Any`) or a codec-specific one, known by name. */
  datatype Prototype = Any | Specialized(name: string)

  /** A node usable through both the typed-node and the legacy interface:
      the default adapter, or whatever codec-specific value `U` a registered
      converter builds. */
  datatype UniversalNode<+U> = Default(legacy: LegacyNode) | Custom(impl: U)

  /** Builds the dual-interface node for a block and its loaded node, or fails with `E`. */
  type Converter<U, E> = (Block, Node) -> Result<UniversalNode<U>, E>

  /** The external link system: loads the block a CID names, shaped by a prototype. */
  type Loader<E> = (Cid, Prototype) -> Result<Node, E>

  /** One table entry: the prototype to load with and the converter to apply. */
  datatype Entry<U, E> = Entry(prototype: Prototype, converter: Converter<U, E>)

  type Registry<U, E> = map<Codec, Entry<U, E>>

  /** Installs `(prototype, converter)` for `codec`, replacing any earlier
      entry for it; every other code keeps its entry. */
  function RegisterCodec<U, E>(reg: Registry<U, E>, codec: Codec, prototype: Prototype, converter: Converter<U, E>)
    : (r: Registry<U, E>)
    ensures r.Keys == reg.Keys + {codec}
    ensures r[codec] == Entry(prototype, converter)
    ensures forall c :: c in reg && c != codec ==> r[c] == reg[c]
  {
    reg[codec := Entry(prototype, converter)]
  }

  /** The entry registered for `codec`, if any. */
  function Lookup<U, E>(reg: Registry<U, E>, codec: Codec): (r: Option<Entry<U, E>>)
    ensures r.Some? <==> codec in reg
    ensures r.Some? ==> r.value == reg[codec]
  {
    if codec in reg then Some(reg[codec]) else None
  }

  /** The prototype the block is loaded with: the registered one, else `Any`. */
  function LoadPrototype<U, E>(reg: Registry<U, E>, codec: Codec): (p: Prototype)
    ensures codec !in reg ==> p == Any
    ensures codec in reg ==> p == reg[codec].prototype
  {
    match Lookup(reg, codec)
    case Some(entry) => entry.prototype
    case None => Any
  }

  /** Decodes a block: the codec code of the block's own CID selects the
      entry; the loader is asked for that same CID with the entry's
      prototype (or `Any`); a load error comes back unchanged; otherwise the
      registered converter's result is returned as it is, or, with no entry,
      the default adapter around the block and the loaded node. */
  function DecodeNode<U, E>(reg: Registry<U, E>, load: Loader<E>, b: Block): (r: Result<UniversalNode<U>, E>)
    ensures b.cid.codec !in reg ==>
      match load(b.cid, Any)
      case Failure(e) => r == Failure(e)
      case Success(nd) => r == Success(Default(LegacyNode(b, nd)))
    ensures b.cid.codec in reg ==>
      match load(b.cid, reg[b.cid.codec].prototype)
      case Failure(e) => r == Failure(e)
      case Success(nd) => r == reg[b.cid.codec].converter(b, nd)
  {
    var entry := Lookup(reg, b.cid.codec);
    match load(b.cid, LoadPrototype(reg, b.cid.codec))
    case Failure(e) => Failure(e)
    case Success(nd) =>
      match entry
      case Some(en) => en.converter(b, nd)
      case None => Success(Default(LegacyNode(b, nd)))
  }

  /** Registering the same code twice keeps only the later entry. */
  lemma RegisterCodecLastWins<U, E>(reg: Registry<U, E>, codec: Codec,
                                    p1: Prototype, f1: Converter<U, E>, p2: Prototype, f2: Converter<U, E>)
    ensures RegisterCodec(RegisterCodec(reg, codec, p1, f1), codec, p2, f2) == RegisterCodec(reg, codec, p2, f2)
  {
  }

  /** Registrations for different codes do not interfere, in either order. */
  lemma RegisterCodecCommutes<U, E>(reg: Registry<U, E>, c1: Codec, p1: Prototype, f1: Converter<U, E>,
                                    c2: Codec, p2: Prototype, f2: Converter<U, E>)
    requires c1 != c2
    ensures RegisterCodec(RegisterCodec(reg, c1, p1, f1), c2, p2, f2)
         == RegisterCodec(RegisterCodec(reg, c2, p2, f2), c1, p1, f1)
  {
  }

  /** The loader is consulted only for the block's own CID with the chosen
      prototype: two loaders that agree there decode the block alike. */
  lemma DecodeConsultsOneLoad<U, E>(reg: Registry<U, E>, l1: Loader<E>, l2: Loader<E>, b: Block)
    requires l1(b.cid, LoadPrototype(reg, b.cid.codec)) == l2(b.cid, LoadPrototype(reg, b.cid.codec))
    ensures DecodeNode(reg, l1, b) == DecodeNode(reg, l2, b)
  {
  }

  /** After registering `(p, f)` for the block's codec, the block is loaded
      with `p` and the result is `f`'s, whatever was registered before. */
  lemma DecodeAfterRegister<U, E>(reg: Registry<U, E>, p: Prototype, f: Converter<U, E>, load: Loader<E>, b: Block)
    ensures DecodeNode(RegisterCodec(reg, b.cid.codec, p, f), load, b) ==
      match load(b.cid, p)
      case Failure(e) => Failure(e)
      case Success(nd) => f(b, nd)
  {
  }

  /** Registering another code leaves the decoding of this block unchanged. */
  lemma DecodeOtherCodecUnaffected<U, E>(reg: Registry<U, E>, c: Codec, p: Prototype, f: Converter<U, E>,
                                         load: Loader<E>, b: Block)
    requires c != b.cid.codec
    ensures DecodeNode(RegisterCodec(reg, c, p, f), load, b) == DecodeNode(reg, load, b)
  {
  }

  /** When the load fails the converter is never consulted: any two
      converters registered with the same prototype give that load error. */
  lemma DecodeLoadErrorSkipsConverter<U, E>(reg: Registry<U, E>, p: Prototype, f: Converter<U, E>, g: Converter<U, E>,
                                            load: Loader<E>, b: Block)
    requires load(b.cid, p).Failure?
    ensures DecodeNode(RegisterCodec(reg, b.cid.codec, p, f), load, b) == Failure(load(b.cid, p).error)
    ensures DecodeNode(RegisterCodec(reg, b.cid.codec, p, g), load, b) == Failure(load(b.cid, p).error)
  {
  }

  /** A converter that always fails with one sentinel error makes decoding
      a successfully loaded block of that codec fail with exactly it. */
  lemma DecodeSentinelError<U, E>(reg: Registry<U, E>, p: Prototype, sentinel: E, load: Loader<E>, b: Block)
    requires load(b.cid, p).Success?
    ensures DecodeNode(RegisterCodec(reg, b.cid.codec, p, (_, _) => Failure(sentinel)), load, b) == Failure(sentinel)
  {
  }

  /** For a code with no entry, decoding never fails once the load
      succeeds, and resolving through the result sees exactly the node
      loaded with `Any`. */
  lemma DecodeUnregisteredIsDefault<U, E>(reg: Registry<U, E>, load: Loader<E>, b: Block, path: seq<string>)
    requires b.cid.codec !in reg
    requires load(b.cid, Any).Success?
    ensures DecodeNode(reg, load, b).Success? && DecodeNode(reg, load, b).value.Default?
    ensures Resolve(DecodeNode(reg, load, b).value.legacy, path) == Resolve(LegacyNode(b, load(b.cid, Any).value), path)
  {
  }
}

=== FILE: ipld.dfy ===
/** The generic, codec-agnostic data model the adapter consumes: content
    identifiers, blocks and typed nodes. Parsing identifiers and decoding
    bytes belong to external libraries; only the shapes are modelled here. */
module Ipld {

  /** A multicodec code as carried in a CID prefix (a Go `uint64`). */
  type Codec = c: nat | c < 0x1_0000_0000_0000_0000

  /** A content identifier. The adapter reads only the codec code; `text`
      stands for the identifier's canonical string form as the CID library
      prints it. */
  datatype Cid = Cid(codec: Codec, text: string)

  /** A raw block: its identifier and its bytes. */
  datatype Block = Block(cid: Cid, data: seq<bv8>)

  /** A decoded typed node: maps keep their entries in iteration order,
      links are identifiers of other blocks that are never followed here.
      Float scalars are not modelled. */
  datatype Node =
    | Map(entries: seq<(string, Node)>)
    | List(items: seq<Node>)
    | Link(target: Cid)
    | Null
    | Bool(boolValue: bool)
    | Int(intValue: int)
    | String(stringValue: string)
    | Bytes(bytesValue: seq<bv8>)

  /** A node of a scalar kind: nothing can be traversed below it. */
  predicate IsScalar(n: Node) {
    n.Null? || n.Bool? || n.Int? || n.String? || n.Bytes?
  }

  /** Every map in the tree has pairwise distinct keys, as the data model
      guarantees for decoded nodes. */
  predicate DistinctKeys(n: Node)
    decreases n
  {
    match n
    case Map(es) =>
      && (forall i, j :: 0 <= i < j < |es| ==> es[i].0 != es[j].0)
      && (forall i :: 0 <= i < |es| ==> DistinctKeys(es[i].1))
    case List(xs) => forall i :: 0 <= i < |xs| ==> DistinctKeys(xs[i])
    case _ => true
  }

  /** No map key anywhere in the tree contains the path separator '/'. */
  predicate SlashFreeKeys(n: Node)
    decreases n
  {
    match n
    case Map(es) =>
      && (forall i :: 0 <= i < |es| ==> '/' !in es[i].0)
      && (forall i :: 0 <= i < |es| ==> SlashFreeKeys(es[i].1))
    case List(xs) => forall i :: 0 <= i < |xs| ==> SlashFreeKeys(xs[i])
    case _ => true
  }
}

=== FILE: legacy.dfy ===
/** The legacy adapter over one (block, typed node) pair: segment-by-segment
    path resolution that stops at links, conversion of a subtree to plain
    values, and the pre-order listing of descendant paths. */
module Legacy {
  import opened Wrappers
  import opened Ipld
  import opened Segments

  /** The default dual-interface node: a block and the node decoded from it. */
  datatype LegacyNode = LegacyNode(block: Block, node: Node)

  /** What traversal hands to legacy callers: plain values, and link
      references that are never followed. */
  datatype PlainValue =
    | PMap(entries: seq<(string, PlainValue)>)
    | PList(items: seq<PlainValue>)
    | PLink(cid: Cid)
    | PNull
    | PBool(boolValue: bool)
    | PInt(intValue: int)
    | PString(stringValue: string)
    | PBytes(bytesValue: seq<bv8>)

  /** A traversal failure; `at` is the path consumed before the step that failed. */
  datatype TraversalError =
    | NoLinksToResolve(at: seq<string>)
    | NoSuchKey(at: seq<string>, segment: string)
    | InvalidIndex(at: seq<string>, segment: string)
    | IndexOutOfRange(at: seq<string>, segment: string)

  /** Where a walk ends: at a node once the path is used up, or at a link
      with the segments not yet consumed. */
  datatype Focus = Reached(node: Node) | AtLink(cid: Cid, remaining: seq<string>)

  predicate IsSuffix<T(==)>(s: seq<T>, t: seq<T>) {
    |s| <= |t| && s == t[|t| - |s|..]
  }

  /** The position of the first entry with key `key`. */
  function KeyIndex(es: seq<(string, Node)>, key: string): (r: Option<nat>)
    ensures r.None? <==> forall i :: 0 <= i < |es| ==> es[i].0 != key
    ensures r.Some? ==> r.value < |es| && es[r.value].0 == key
    ensures r.Some? ==> forall j :: 0 <= j < r.value ==> es[j].0 != key
    decreases |es|
  {
    if es == [] then None
    else if es[0].0 == key then Some(0)
    else match KeyIndex(es[1..], key)
      case None => None
      case Some(j) => Some(j + 1)
  }

  /** The first entry with a key is the one `KeyIndex` finds. */
  lemma KeyIndexFirst(es: seq<(string, Node)>, key: string, i: nat)
    requires i < |es| && es[i].0 == key
    requires forall j :: 0 <= j < i ==> es[j].0 != key
    ensures KeyIndex(es, key) == Some(i)
  {
  }

  /** One traversal step from a non-link node: a map by key, a list by
      decimal index; a scalar has nothing to step into. */
  function Child(n: Node, segment: string, at: seq<string>): Result<Node, TraversalError>
  {
    match n
    case Map(es) =>
      (match KeyIndex(es, segment)
       case Some(i) => Success(es[i].1)
       case None => Failure(NoSuchKey(at, segment)))
    case List(xs) =>
      (match ParseIndex(segment)
       case None => Failure(InvalidIndex(at, segment))
       case Some(k) => if k < |xs| then Success(xs[k]) else Failure(IndexOutOfRange(at, segment)))
    case _ => Failure(NoLinksToResolve(at))
  }

  /** The position of the child that `segment` selects under `n`, if any:
      the first entry with that key, or the list element with that index. */
  function ChildIndex(n: Node, segment: string): (r: Option<nat>)
    ensures r.Some? ==> r.value < ChildCount(n)
  {
    match n
    case Map(es) => KeyIndex(es, segment)
    case List(xs) =>
      (match ParseIndex(segment)
       case Some(k) => if k < |xs| then Some(k) else None
       case None => None)
    case _ => None
  }

  /** The error names a step of `path` taken after `at`: its consumed path
      is `at` plus the segments before that step, and the segment it names
      (when it names one) is the one at that step. */
  predicate NamesFailedStep(e: TraversalError, path: seq<string>, at: seq<string>) {
    && |at| <= |e.at| < |at| + |path|
    && e.at == at + path[..|e.at| - |at|]
    && (!e.NoLinksToResolve? ==> e.segment == path[|e.at| - |at|])
  }

  /** Consumes `path` from `n`; `at` is the part of the path consumed so far.
      A link stops the walk with every unconsumed segment; a failure names
      the consumed prefix and, where there is one, the segment that failed. */
  function Walk(n: Node, path: seq<string>, at: seq<string>): (r: Result<Focus, TraversalError>)
    ensures r.Success? && r.value.AtLink? ==> IsSuffix(r.value.remaining, path)
    ensures r.Success? && r.value.Reached? ==> !r.value.node.Link?
    ensures r.Failure? ==> NamesFailedStep(r.error, path, at)
    decreases |path|
  {
    if n.Link? then Success(AtLink(n.target, path))
    else if path == [] then Success(Reached(n))
    else match Child(n, path[0], at)
      case Failure(e) => Failure(e)
      case Success(c) =>
        var r := Walk(c, path[1..], at + [path[0]]);
        assert r.Failure? ==> at + [path[0]] + path[1..][..|r.error.at| - |at| - 1] == at + path[..|r.error.at| - |at|];
        r
  }

  /** Walking `path` from `n` consumes every segment of it without error. */
  predicate Lands(n: Node, path: seq<string>) {
    var r := Walk(n, path, []);
    r.Success? && (r.value.Reached? || r.value.remaining == [])
  }

  /** No plain value in the tree is a link reference. */
  predicate NoLinkRefs(v: PlainValue)
    decreases v
  {
    match v
    case PMap(ps) => forall i :: 0 <= i < |ps| ==> NoLinkRefs(ps[i].1)
    case PList(vs) => forall i :: 0 <= i < |vs| ==> NoLinkRefs(vs[i])
    case PLink(_) => false
    case _ => true
  }

  /** The plain form of a link nested inside a converted subtree: a
      one-entry map from "/" to the identifier's string form. */
  function LinkAsPlain(c: Cid): PlainValue {
    PMap([("/", PString(c.text))])
  }

  /** Converts a subtree to plain values, keeping map key order and list
      order; nested links become `LinkAsPlain` maps and are not followed. */
  function ToPlain(n: Node): (v: PlainValue)
    ensures NoLinkRefs(v)
    ensures n.Map? ==>
              && v.PMap? && |v.entries| == |n.entries|
              && forall i :: 0 <= i < |n.entries| ==> v.entries[i].0 == n.entries[i].0
    ensures n.List? ==> v.PList? && |v.items| == |n.items|
    ensures n.Link? ==> v == LinkAsPlain(n.target)
    decreases n
  {
    match n
    case Map(es) => PMap(seq(|es|, i requires 0 <= i < |es| => (es[i].0, ToPlain(es[i].1))))
    case List(xs) => PList(seq(|xs|, i requires 0 <= i < |xs| => ToPlain(xs[i])))
    case Link(c) => LinkAsPlain(c)
    case Null => PNull
    case Bool(b) => PBool(b)
    case Int(k) => PInt(k)
    case String(s) => PString(s)
    case Bytes(bs) => PBytes(bs)
  }

  /** Resolves `path` against the adapter's node: the plain value found and
      the segments left over at a link. */
  function Resolve(ln: LegacyNode, path: seq<string>): (r: Result<(PlainValue, seq<string>), TraversalError>)
    ensures r.Success? ==> IsSuffix(r.value.1, path)
    ensures r.Success? && r.value.1 != [] ==> r.value.0.PLink?
    ensures path == [] && !ln.node.Link? ==> r == Success((ToPlain(ln.node), []))
    ensures r.Failure? <==> Walk(ln.node, path, []).Failure?
    ensures r.Failure? ==> NamesFailedStep(r.error, path, [])
  {
    match Walk(ln.node, path, [])
    case Failure(e) => Failure(e)
    case Success(Reached(m)) => Success((ToPlain(m), []))
    case Success(AtLink(c, rest)) => Success((PLink(c), rest))
  }

  /** The number of children `Tree` lists under a node: map entries or
      list elements; links and scalars have none. */
  function ChildCount(n: Node): nat {
    match n
    case Map(es) => |es|
    case List(xs) => |xs|
    case _ => 0
  }

  /** The name of child `i`: its map key, or its decimal list index. */
  function ChildName(n: Node, i: nat): string
    requires i < ChildCount(n)
  {
    match n
    case Map(es) => es[i].0
    case List(_) => NatToString(i)
    case _ => ""
  }

  function ChildNode(n: Node, i: nat): Node
    requires i < ChildCount(n)
  {
    match n
    case Map(es) => es[i].1
    case List(xs) => xs[i]
    case _ => Null
  }

  /** The depth budget one level down; a negative depth is unlimited. */
  function Deeper(depth: int): int {
    if depth < 0 then depth else depth - 1
  }

  /** Puts `name` in front of every path of `ps`. */
  function Prefixed(name: string, ps: seq<seq<string>>): (r: seq<seq<string>>)
    ensures |r| == |ps|
    ensures forall j :: 0 <= j < |ps| ==> r[j] == [name] + ps[j]
  {
    seq(|ps|, j requires 0 <= j < |ps| => [name] + ps[j])
  }

  /** Every path has at least one segment, and at most `depth` when
      `depth` is not negative. */
  predicate WithinDepth(ps: seq<seq<string>>, depth: int) {
    forall k :: 0 <= k < |ps| ==> 1 <= |ps[k]| && (depth >= 0 ==> |ps[k]| <= depth)
  }

  /** Every descendant path of `n`, at most `depth` segments long (any
      length when `depth` is negative), in pre-order: children in their
      stored order, each followed by its own descendants. Links and scalars
      have no children, so nothing is listed below them. */
  function TreePaths(n: Node, depth: int): (r: seq<seq<string>>)
    ensures WithinDepth(r, depth)
    decreases n, 2
  {
    ListingFrom(n, 0, depth)
  }

  /** The listings of children `i`, `i + 1`, ... of `n`, concatenated. */
  function ListingFrom(n: Node, i: nat, depth: int): (r: seq<seq<string>>)
    requires i <= ChildCount(n)
    ensures WithinDepth(r, depth)
    decreases n, 1, ChildCount(n) - i
  {
    if depth == 0 || i == ChildCount(n) then []
    else EntryListing(n, i, depth) + ListingFrom(n, i + 1, depth)
  }

  /** Child `i` by its bare name, then its descendants under that name. */
  function EntryListing(n: Node, i: nat, depth: int): (r: seq<seq<string>>)
    requires i < ChildCount(n) && depth != 0
    ensures WithinDepth(r, depth)
    decreases n, 0
  {
    var name := ChildName(n, i);
    [[name]] + Prefixed(name, TreePaths(ChildNode(n, i), Deeper(depth)))
  }

  /** Joins every path with '/'. */
  function JoinAll(ps: seq<seq<string>>): (r: seq<string>)
    requires forall k :: 0 <= k < |ps| ==> |ps[k]| >= 1
    ensures |r| == |ps|
    ensures forall k :: 0 <= k < |ps| ==> r[k] == Join(ps[k])
  {
    seq(|ps|, k requires 0 <= k < |ps| => Join(ps[k]))
  }

  /** The segments of a '/'-separated start path; "" is the root. */
  function StartPath(path: string): seq<string> {
    if path == "" then [] else Split(path)
  }

  /** The start path leads to a node (not a link) whose keys are distinct
      and '/'-free, so that its listing can be named unambiguously. */
  predicate ReachesListable(n: Node, s: seq<string>) {
    && Walk(n, s, []).Success? && Walk(n, s, []).value.Reached?
    && DistinctKeys(Walk(n, s, []).value.node) && SlashFreeKeys(Walk(n, s, []).value.node)
  }

  /** Lists the descendant paths of the node at `path` as '/'-joined names;
      empty when walking `path` fails or stops at a link. Each name splits
      back into the listed path at the same position. */
  function Tree(ln: LegacyNode, path: string, depth: int): (r: seq<string>)
    ensures ReachesListable(ln.node, StartPath(path)) ==>
              var ps := TreePaths(Walk(ln.node, StartPath(path), []).value.node, depth);
              |r| == |ps| && forall k :: 0 <= k < |r| ==> Split(r[k]) == ps[k]
  {
    match Walk(ln.node, StartPath(path), [])
    case Success(Reached(m)) =>
      TreePathsSplitBack(m, depth);
      JoinAll(TreePaths(m, depth))
    case _ => []
  }

  // ---------------------------------------------------------------------
  // Resolve

  /** The consumed-path accumulator only labels errors: it never changes
      whether or where a walk ends. */
  lemma {:induction false} WalkAtIrrelevant(n: Node, path: seq<string>, a: seq<string>, b: seq<string>)
    ensures Walk(n, path, a).Success? <==> Walk(n, path, b).Success?
    ensures Walk(n, path, a).Success? ==> Walk(n, path, a).value == Walk(n, path, b).value
    decreases |path|
  {
    if !n.Link? && path != [] && Child(n, path[0], a).Success? {
      WalkAtIrrelevant(Child(n, path[0], a).value, path[1..], a + [path[0]], b + [path[0]]);
    }
  }

  /** One step of a walk from a node that is not a link. */
  lemma WalkStep(n: Node, segment: string, rest: seq<string>, at: seq<string>)
    requires !n.Link?
    ensures Child(n, segment, at).Failure? ==> Walk(n, [segment] + rest, at) == Failure(Child(n, segment, at).error)
    ensures Child(n, segment, at).Success? ==>
              Walk(n, [segment] + rest, at) == Walk(Child(n, segment, at).value, rest, at + [segment])
  {
    assert ([segment] + rest)[0] == segment && ([segment] + rest)[1..] == rest;
  }

  /** Walking `p + q` is walking `p` and then `q` from wherever `p` ended:
      a failure or a link on the way stays where it was, with `q` added to
      the link's unconsumed segments. */
  lemma {:induction false} WalkAppend(n: Node, p: seq<string>, q: seq<string>, at: seq<string>)
    ensures Walk(n, p, at).Failure? ==> Walk(n, p + q, at) == Walk(n, p, at)
    ensures Walk(n, p, at).Success? && Walk(n, p, at).value.Reached? ==>
              Walk(n, p + q, at) == Walk(Walk(n, p, at).value.node, q, at + p)
    ensures Walk(n, p, at).Success? && Walk(n, p, at).value.AtLink? ==>
              Walk(n, p + q, at) == Success(AtLink(Walk(n, p, at).value.cid, Walk(n, p, at).value.remaining + q))
    decreases |p|
  {
    if n.Link? {
    } else if p == [] {
      assert p + q == q && at + p == at;
    } else {
      var s, p' := p[0], p[1..];
      assert p == [s] + p' && p + q == [s] + (p' + q);
      WalkStep(n, s, p', at);
      WalkStep(n, s, p' + q, at);
      if Child(n, s, at).Success? {
        WalkAppend(Child(n, s, at).value, p', q, at + [s]);
        assert at + [s] + p' == at + p;
      }
    }
  }

  /** Once a prefix of the path reaches a link, resolution stops there and
      hands back the link with exactly the rest of the path. */
  lemma ResolveStopsAtLink(ln: LegacyNode, p: seq<string>, rest: seq<string>)
    requires Walk(ln.node, p, []).Success?
    requires Walk(ln.node, p, []).value.AtLink? && Walk(ln.node, p, []).value.remaining == []
    ensures Resolve(ln, p + rest) == Success((PLink(Walk(ln.node, p, []).value.cid), rest))
  {
    WalkAppend(ln.node, p, rest, []);
  }

  /** Going on past a scalar fails, naming the path that led to the scalar. */
  lemma ResolvePastScalar(ln: LegacyNode, p: seq<string>, rest: seq<string>)
    requires Walk(ln.node, p, []).Success?
    requires Walk(ln.node, p, []).value.Reached? && IsScalar(Walk(ln.node, p, []).value.node)
    requires rest != []
    ensures Resolve(ln, p + rest) == Failure(NoLinksToResolve(p))
  {
    WalkAppend(ln.node, p, rest, []);
    assert [] + p == p;
  }

  /** Resolving `p + q` from the root, where `p` reaches node `m`, is
      resolving `q` from `m`. */
  lemma ResolveRelative(ln: LegacyNode, p: seq<string>, q: seq<string>)
    requires Walk(ln.node, p, []).Success? && Walk(ln.node, p, []).value.Reached?
    ensures Resolve(ln, p + q).Success? <==>
              Resolve(LegacyNode(ln.block, Walk(ln.node, p, []).value.node), q).Success?
    ensures Resolve(ln, p + q).Success? ==>
              Resolve(ln, p + q).value == Resolve(LegacyNode(ln.block, Walk(ln.node, p, []).value.node), q).value
  {
    WalkAppend(ln.node, p, q, []);
    assert [] + p == p;
    WalkAtIrrelevant(Walk(ln.node, p, []).value.node, q, p, []);
  }

  /** A path that is used up at a node, not at a link, resolves to that
      node's plain form with nothing remaining. */
  lemma ResolveReached(ln: LegacyNode, p: seq<string>)
    requires Walk(ln.node, p, []).Success? && Walk(ln.node, p, []).value.Reached?
    ensures Resolve(ln, p) == Success((ToPlain(Walk(ln.node, p, []).value.node), []))
  {
    ResolveRelative(ln, p, []);
    assert p + [] == p;
  }

  /** On a map with distinct keys, a key segment selects that key's value. */
  lemma ChildOfMap(es: seq<(string, Node)>, i: nat, at: seq<string>)
    requires i < |es|
    requires forall j, k :: 0 <= j < k < |es| ==> es[j].0 != es[k].0
    ensures Child(Map(es), es[i].0, at) == Success(es[i].1)
  {
    var r := KeyIndex(es, es[i].0);
    assert r.Some? && r.value == i;
  }

  /** On a list, the decimal name of an index in range selects that element. */
  lemma ChildOfList(xs: seq<Node>, k: nat, at: seq<string>)
    requires k < |xs|
    ensures Child(List(xs), NatToString(k), at) == Success(xs[k])
  {
    ParseIndexIff(NatToString(k), k);
  }

  /** The `i`-th listed child is what its own name selects. */
  lemma ChildNamed(n: Node, i: nat, at: seq<string>)
    requires i < ChildCount(n) && DistinctKeys(n)
    ensures Child(n, ChildName(n, i), at) == Success(ChildNode(n, i))
    ensures DistinctKeys(ChildNode(n, i))
  {
    if n.Map? {
      ChildOfMap(n.entries, i, at);
    } else {
      ChildOfList(n.items, i, at);
    }
  }

  /** The name of the `i`-th child selects position `i`. */
  lemma ChildIndexOfName(n: Node, i: nat)
    requires i < ChildCount(n) && DistinctKeys(n)
    ensures ChildIndex(n, ChildName(n, i)) == Some(i)
  {
    if n.Map? {
      var r := KeyIndex(n.entries, n.entries[i].0);
      assert r.Some? && r.value == i;
    } else {
      ParseIndexIff(NatToString(i), i);
    }
  }

  /** A step succeeds exactly when the segment selects a child position,
      and then it yields that child. */
  lemma ChildIndexSelects(n: Node, segment: string, at: seq<string>)
    requires !n.Link?
    ensures Child(n, segment, at).Success? <==> ChildIndex(n, segment).Some?
    ensures ChildIndex(n, segment).Some? ==>
              Child(n, segment, at).value == ChildNode(n, ChildIndex(n, segment).value)
  {
  }

  // ---------------------------------------------------------------------
  // Tree

  /** Every listed path resolves from `n` with no segment left over, and
      (when keys are '/'-free) every segment of it is '/'-free. */
  lemma {:induction false} TreePathsSound(n: Node, depth: int)
    requires DistinctKeys(n)
    ensures forall p :: p in TreePaths(n, depth) ==> Lands(n, p)
    ensures SlashFreeKeys(n) ==>
      forall p, k :: p in TreePaths(n, depth) && 0 <= k < |p| ==> '/' !in p[k]
    decreases n, 2
  {
    ListingFromSound(n, 0, depth);
  }

  lemma {:induction false} ListingFromSound(n: Node, i: nat, depth: int)
    requires DistinctKeys(n) && i <= ChildCount(n)
    ensures forall p :: p in ListingFrom(n, i, depth) ==> Lands(n, p)
    ensures SlashFreeKeys(n) ==>
      forall p, k :: p in ListingFrom(n, i, depth) && 0 <= k < |p| ==> '/' !in p[k]
    decreases n, 1, ChildCount(n) - i
  {
    if depth != 0 && i < ChildCount(n) {
      EntryListingSound(n, i, depth);
      ListingFromSound(n, i + 1, depth);
    }
  }

  lemma {:induction false} EntryListingSound(n: Node, i: nat, depth: int)
    requires DistinctKeys(n) && i < ChildCount(n) && depth != 0
    ensures forall p :: p in EntryListing(n, i, depth) ==> Lands(n, p)
    ensures SlashFreeKeys(n) ==>
      forall p, k :: p in EntryListing(n, i, depth) && 0 <= k < |p| ==> '/' !in p[k]
    decreases n, 0
  {
    var name, c := ChildName(n, i), ChildNode(n, i);
    var below := TreePaths(c, Deeper(depth));
    ChildNamed(n, i, []);
    TreePathsSound(c, Deeper(depth));
    assert Walk(n, [name], []) == Walk(c, [], [name]);
    forall p | p in Prefixed(name, below)
      ensures Lands(n, p)
    {
      var q := p[1..];
      assert p == [name] + q && q in below;
      assert p[0] == name && [] + [name] == [name];
      assert Walk(n, p, []) == Walk(c, q, [name]);
      WalkAtIrrelevant(c, q, [], [name]);
    }
    if SlashFreeKeys(n) {
      assert '/' !in name by {
        if n.List? {
          assert AllDigits(name);
        }
      }
      assert SlashFreeKeys(c);
      forall p, k | p in Prefixed(name, below) && 0 <= k < |p|
        ensures '/' !in p[k]
      {
        var q := p[1..];
        assert p == [name] + q && q in below;
        if k > 0 {
          assert p[k] == q[k - 1];
        }
      }
    }
  }

  /** The listing from child `i` on is child `i`'s listing, then the rest. */
  lemma ListingStep(n: Node, i: nat, depth: int)
    requires i < ChildCount(n) && depth != 0
    ensures ListingFrom(n, i, depth) == EntryListing(n, i, depth) + ListingFrom(n, i + 1, depth)
  {
  }

  /** Entry `i`'s listing is part of the listing that starts at any `j <= i`. */
  lemma {:induction false} ListingFromIncludes(n: Node, j: nat, i: nat, depth: int, p: seq<string>)
    requires j <= i < ChildCount(n) && depth != 0
    requires p in EntryListing(n, i, depth)
    ensures p in ListingFrom(n, j, depth)
    decreases i - j
  {
    if j < i {
      ListingFromIncludes(n, j + 1, i, depth, p);
    }
  }

  /** Every non-empty path within the depth bound that resolves from `n`
      with no segment left over is listed. */
  lemma {:induction false} TreePathsComplete(n: Node, depth: int, p: seq<string>)
    requires 1 <= |p| && (depth < 0 || |p| <= depth)
    requires Lands(n, p)
    ensures p in TreePaths(n, depth)
    decreases |p|
  {
    var i: nat;
    match n {
      case Map(es) =>
        i := KeyIndex(es, p[0]).value;
      case List(xs) =>
        i := ParseIndex(p[0]).value;
        ParseIndexIff(p[0], i);
    }
    var c := ChildNode(n, i);
    var q := p[1..];
    assert Child(n, p[0], []) == Success(c);
    assert [] + [p[0]] == [p[0]];
    assert Walk(n, p, []) == Walk(c, q, [p[0]]);
    WalkAtIrrelevant(c, q, [], [p[0]]);
    if q == [] {
      assert p == [ChildName(n, i)];
    } else {
      TreePathsComplete(c, Deeper(depth), q);
      assert p == [ChildName(n, i)] + q;
      assert p in Prefixed(ChildName(n, i), TreePaths(c, Deeper(depth)));
    }
    ListingFromIncludes(n, 0, i, depth, p);
  }

  /** `Tree`'s listing, as segment paths, is exactly the set of non-empty
      paths within the depth bound that resolve with nothing left over. */
  lemma TreePathsIff(n: Node, depth: int, p: seq<string>)
    requires DistinctKeys(n)
    ensures p in TreePaths(n, depth) <==> 1 <= |p| && (depth < 0 || |p| <= depth) && Lands(n, p)
  {
    TreePathsSound(n, depth);
    if 1 <= |p| && (depth < 0 || |p| <= depth) && Lands(n, p) {
      TreePathsComplete(n, depth, p);
    }
  }

  /** With depth 1 only the direct children are listed, by bare name, in
      their stored order. */
  lemma TreePathsDepthOne(n: Node)
    ensures |TreePaths(n, 1)| == ChildCount(n)
    ensures forall i :: 0 <= i < ChildCount(n) ==> TreePaths(n, 1)[i] == [ChildName(n, i)]
  {
    ListingFromDepthOne(n, 0);
  }

  lemma {:induction false} ListingFromDepthOne(n: Node, i: nat)
    requires i <= ChildCount(n)
    ensures |ListingFrom(n, i, 1)| == ChildCount(n) - i
    ensures forall k :: 0 <= k < ChildCount(n) - i ==> ListingFrom(n, i, 1)[k] == [ChildName(n, i + k)]
    decreases ChildCount(n) - i
  {
    if i < ChildCount(n) {
      assert TreePaths(ChildNode(n, i), 0) == [];
      assert EntryListing(n, i, 1) == [[ChildName(n, i)]];
      ListingFromDepthOne(n, i + 1);
      var r := ListingFrom(n, i, 1);
      assert r == [[ChildName(n, i)]] + ListingFrom(n, i + 1, 1);
      forall k | 0 < k < ChildCount(n) - i
        ensures r[k] == [ChildName(n, i + k)]
      {
        assert r[k] == ListingFrom(n, i + 1, 1)[k - 1];
      }
    }
  }

  /** The path at `k` is preceded, somewhere before `k`, by its parent path. */
  predicate ParentBefore(ps: seq<seq<string>>, k: nat) {
    && k < |ps| && |ps[k]| >= 1
    && exists j :: 0 <= j < k && ps[j] == ps[k][..|ps[k]| - 1]
  }

  /** A parent found before position `k` in either part of a concatenation
      is found before the corresponding position of the whole. */
  lemma ParentBeforeConcat(e: seq<seq<string>>, rest: seq<seq<string>>, k: nat)
    requires k < |e| ==> ParentBefore(e, k)
    requires |e| <= k ==> ParentBefore(rest, k - |e|)
    ensures ParentBefore(e + rest, k)
  {
    if k < |e| {
      var j :| 0 <= j < k && e[j] == e[k][..|e[k]| - 1];
      assert (e + rest)[j] == e[j] && (e + rest)[k] == e[k];
    } else {
      var j :| 0 <= j < k - |e| && rest[j] == rest[k - |e|][..|rest[k - |e|]| - 1];
      assert (e + rest)[|e| + j] == rest[j] && (e + rest)[k] == rest[k - |e|];
    }
  }

  /** Pre-order: a listed path of two or more segments comes after the
      listed path of its parent. */
  lemma {:induction false} TreePathsParentFirst(n: Node, depth: int, k: nat)
    requires k < |TreePaths(n, depth)| && |TreePaths(n, depth)[k]| >= 2
    ensures ParentBefore(TreePaths(n, depth), k)
    decreases n, 2
  {
    ListingFromParentFirst(n, 0, depth, k);
  }

  lemma {:induction false} ListingFromParentFirst(n: Node, i: nat, depth: int, k: nat)
    requires i <= ChildCount(n)
    requires k < |ListingFrom(n, i, depth)| && |ListingFrom(n, i, depth)[k]| >= 2
    ensures ParentBefore(ListingFrom(n, i, depth), k)
    decreases n, 1, ChildCount(n) - i
  {
    assert depth != 0 && i < ChildCount(n);
    var e := EntryListing(n, i, depth);
    var rest := ListingFrom(n, i + 1, depth);
    ListingStep(n, i, depth);
    if k < |e| {
      assert (e + rest)[k] == e[k];
      EntryListingParentFirst(n, i, depth, k);
    } else {
      assert (e + rest)[k] == rest[k - |e|];
      ListingFromParentFirst(n, i + 1, depth, k - |e|);
    }
    ParentBeforeConcat(e, rest, k);
  }

  lemma {:induction false} EntryListingParentFirst(n: Node, i: nat, depth: int, k: nat)
    requires i < ChildCount(n) && depth != 0
    requires k < |EntryListing(n, i, depth)| && |EntryListing(n, i, depth)[k]| >= 2
    ensures ParentBefore(EntryListing(n, i, depth), k)
    decreases n, 0
  {
    var name := ChildName(n, i);
    var below := TreePaths(ChildNode(n, i), Deeper(depth));
    var e := EntryListing(n, i, depth);
    assert e == [[name]] + Prefixed(name, below);
    var q := below[k - 1];
    assert e[k] == [name] + q;
    if |q| == 1 {
      assert e[k][..|e[k]| - 1] == [name] == e[0];
    } else {
      TreePathsParentFirst(ChildNode(n, i), Deeper(depth), k - 1);
      var j :| 0 <= j < k - 1 && below[j] == q[..|q| - 1];
      assert e[j + 1] == [name] + below[j];
      assert e[k][..|e[k]| - 1] == [name] + q[..|q| - 1];
    }
  }

  /** Pre-order on paths below `n`: `p` is a proper prefix of `q`, or, at the
      first segment where they differ, `p` selects an earlier child of the
      node that their common prefix reaches. */
  predicate PreOrderLess(n: Node, p: seq<string>, q: seq<string>)
    decreases |p|
  {
    if p == [] then q != []
    else if q == [] then false
    else match ChildIndex(n, p[0])
      case None => false
      case Some(i) =>
        if p[0] == q[0] then PreOrderLess(ChildNode(n, i), p[1..], q[1..])
        else ChildIndex(n, q[0]).Some? && i < ChildIndex(n, q[0]).value
  }

  /** No path comes both before and after another one. */
  lemma {:induction false} PreOrderAsymmetric(n: Node, p: seq<string>, q: seq<string>)
    requires PreOrderLess(n, p, q)
    ensures !PreOrderLess(n, q, p)
    decreases |p|
  {
    if p != [] && p[0] == q[0] {
      PreOrderAsymmetric(ChildNode(n, ChildIndex(n, p[0]).value), p[1..], q[1..]);
    }
  }

  /** Every earlier path of `ps` is before every later one. */
  predicate InPreOrder(n: Node, ps: seq<seq<string>>) {
    forall k, l :: 0 <= k < l < |ps| ==> PreOrderLess(n, ps[k], ps[l])
  }

  /** Every path of child `i`'s listing starts with child `i`'s name. */
  lemma EntryListingHead(n: Node, i: nat, depth: int, k: nat)
    requires i < ChildCount(n) && depth != 0 && k < |EntryListing(n, i, depth)|
    ensures EntryListing(n, i, depth)[k][0] == ChildName(n, i)
  {
  }

  /** Every path listed from child `i` on starts by selecting child `i` or
      a later one. */
  lemma {:induction false} ListingFromHeads(n: Node, i: nat, depth: int, k: nat)
    requires DistinctKeys(n) && i <= ChildCount(n) && k < |ListingFrom(n, i, depth)|
    ensures ChildIndex(n, ListingFrom(n, i, depth)[k][0]).Some?
    ensures i <= ChildIndex(n, ListingFrom(n, i, depth)[k][0]).value
    decreases ChildCount(n) - i
  {
    assert depth != 0 && i < ChildCount(n);
    var e := EntryListing(n, i, depth);
    var rest := ListingFrom(n, i + 1, depth);
    ListingStep(n, i, depth);
    if k < |e| {
      assert (e + rest)[k] == e[k];
      EntryListingHead(n, i, depth, k);
      ChildIndexOfName(n, i);
    } else {
      assert (e + rest)[k] == rest[k - |e|];
      ListingFromHeads(n, i + 1, depth, k - |e|);
    }
  }

  /** Pre-order, in full: every listed path comes before every path listed
      after it. A parent precedes its descendants, a child's whole subtree
      precedes the next child, and children keep their stored order. */
  lemma {:induction false} TreePathsOrdered(n: Node, depth: int, k: nat, l: nat)
    requires DistinctKeys(n) && k < l < |TreePaths(n, depth)|
    ensures PreOrderLess(n, TreePaths(n, depth)[k], TreePaths(n, depth)[l])
    decreases n, 2, 0, 0
  {
    ListingFromOrdered(n, 0, depth, k, l);
  }

  lemma {:induction false} ListingFromOrdered(n: Node, i: nat, depth: int, k: nat, l: nat)
    requires DistinctKeys(n) && i <= ChildCount(n) && k < l < |ListingFrom(n, i, depth)|
    ensures PreOrderLess(n, ListingFrom(n, i, depth)[k], ListingFrom(n, i, depth)[l])
    decreases n, 1, ChildCount(n) - i, 1
  {
    assert depth != 0 && i < ChildCount(n);
    ListingStep(n, i, depth);
    if |EntryListing(n, i, depth)| <= k {
      LaterOrdered(n, i, depth, k, l);
    } else {
      ListingFromHeadOrdered(n, i, depth, k, l);
    }
  }

  /** Two paths both listed after child `i`'s own listing. */
  lemma {:induction false} LaterOrdered(n: Node, i: nat, depth: int, k: nat, l: nat)
    requires DistinctKeys(n) && i < ChildCount(n) && depth != 0
    requires ListingFrom(n, i, depth) == EntryListing(n, i, depth) + ListingFrom(n, i + 1, depth)
    requires |EntryListing(n, i, depth)| <= k < l < |ListingFrom(n, i, depth)|
    ensures PreOrderLess(n, ListingFrom(n, i, depth)[k], ListingFrom(n, i, depth)[l])
    decreases n, 1, ChildCount(n) - i, 0
  {
    var e, rest := EntryListing(n, i, depth), ListingFrom(n, i + 1, depth);
    var k', l' := k - |e|, l - |e|;
    assert l' < |rest|;
    ListingFromOrdered(n, i + 1, depth, k', l');
    OrderedInRight(n, ListingFrom(n, i, depth), e, rest, k, l);
  }

  /** The first path belongs to child `i`'s own listing. */
  lemma {:induction false} ListingFromHeadOrdered(n: Node, i: nat, depth: int, k: nat, l: nat)
    requires DistinctKeys(n) && i < ChildCount(n) && depth != 0
    requires ListingFrom(n, i, depth) == EntryListing(n, i, depth) + ListingFrom(n, i + 1, depth)
    requires k < |EntryListing(n, i, depth)| && k < l < |ListingFrom(n, i, depth)|
    ensures PreOrderLess(n, ListingFrom(n, i, depth)[k], ListingFrom(n, i, depth)[l])
    decreases n, 1, ChildCount(n) - i, 0
  {
    var e, rest := EntryListing(n, i, depth), ListingFrom(n, i + 1, depth);
    if l < |e| {
      EntryListingOrdered(n, i, depth, k, l);
      OrderedInLeft(n, ListingFrom(n, i, depth), e, rest, k, l);
    } else {
      EntryBeforeLater(n, i, depth, k, l - |e|);
      OrderedAcross(n, ListingFrom(n, i, depth), e, rest, k, l);
    }
  }

  /** Child `i`'s paths come before every path of the later children. */
  lemma EntryBeforeLater(n: Node, i: nat, depth: int, k: nat, l: nat)
    requires DistinctKeys(n) && i < ChildCount(n) && depth != 0
    requires k < |EntryListing(n, i, depth)| && l < |ListingFrom(n, i + 1, depth)|
    ensures PreOrderLess(n, EntryListing(n, i, depth)[k], ListingFrom(n, i + 1, depth)[l])
  {
    EntryListingHead(n, i, depth, k);
    ChildIndexOfName(n, i);
    ListingFromHeads(n, i + 1, depth, l);
  }

  /** Order within, or across, the two parts of a concatenation is order
      in the whole. */
  lemma OrderedInLeft(n: Node, ps: seq<seq<string>>, e: seq<seq<string>>, rest: seq<seq<string>>, k: nat, l: nat)
    requires ps == e + rest && k < l < |e| && PreOrderLess(n, e[k], e[l])
    ensures PreOrderLess(n, ps[k], ps[l])
  {
  }

  lemma OrderedInRight(n: Node, ps: seq<seq<string>>, e: seq<seq<string>>, rest: seq<seq<string>>, k: nat, l: nat)
    requires ps == e + rest && |e| <= k < l < |ps| && PreOrderLess(n, rest[k - |e|], rest[l - |e|])
    ensures PreOrderLess(n, ps[k], ps[l])
  {
  }

  lemma OrderedAcross(n: Node, ps: seq<seq<string>>, e: seq<seq<string>>, rest: seq<seq<string>>, k: nat, l: nat)
    requires ps == e + rest && k < |e| <= l < |ps| && PreOrderLess(n, e[k], rest[l - |e|])
    ensures PreOrderLess(n, ps[k], ps[l])
  {
  }

  lemma {:induction false} EntryListingOrdered(n: Node, i: nat, depth: int, k: nat, l: nat)
    requires DistinctKeys(n) && i < ChildCount(n) && depth != 0
    requires k < l < |EntryListing(n, i, depth)|
    ensures PreOrderLess(n, EntryListing(n, i, depth)[k], EntryListing(n, i, depth)[l])
    decreases n, 0, 0, 0
  {
    var name, c := ChildName(n, i), ChildNode(n, i);
    var below := TreePaths(c, Deeper(depth));
    var e := EntryListing(n, i, depth);
    ChildIndexOfName(n, i);
    ChildNamed(n, i, []);
    var b := below[l - 1];
    assert e[l] == [name] + b;
    assert e[l][0] == name && e[l][1..] == b;
    if k == 0 {
      assert e[0] == [name] && e[0][1..] == [];
    } else {
      var a := below[k - 1];
      assert e[k] == [name] + a;
      assert e[k][0] == name && e[k][1..] == a;
      TreePathsOrdered(c, Deeper(depth), k - 1, l - 1);
    }
  }

  lemma TreePathsInPreOrder(n: Node, depth: int)
    requires DistinctKeys(n)
    ensures InPreOrder(n, TreePaths(n, depth))
  {
    var ps := TreePaths(n, depth);
    forall k, l | 0 <= k < l < |ps|
      ensures PreOrderLess(n, ps[k], ps[l])
    {
      TreePathsOrdered(n, depth, k, l);
    }
  }

  /** No path is listed twice. */
  lemma TreePathsDistinct(n: Node, depth: int, k: nat, l: nat)
    requires DistinctKeys(n) && k < l < |TreePaths(n, depth)|
    ensures TreePaths(n, depth)[k] != TreePaths(n, depth)[l]
  {
    TreePathsOrdered(n, depth, k, l);
    PreOrderAsymmetric(n, TreePaths(n, depth)[k], TreePaths(n, depth)[l]);
  }

  /** The head of a pre-ordered sequence is before everything after it. */
  lemma HeadFirst(n: Node, a: seq<seq<string>>, p: seq<string>)
    requires InPreOrder(n, a) && a != [] && p in a[1..]
    ensures PreOrderLess(n, a[0], p) && p != a[0]
  {
    var k :| 0 <= k < |a[1..]| && a[1..][k] == p;
    assert a[k + 1] == p;
    PreOrderAsymmetric(n, a[0], p);
  }

  /** A member of `a` other than its head is in its tail. */
  lemma InTail(a: seq<seq<string>>, p: seq<string>)
    requires a != [] && p != a[0]
    ensures p in a <==> p in a[1..]
  {
  }

  /** Two pre-ordered sequences with the same members are the same sequence. */
  lemma {:induction false} PreOrderUnique(n: Node, a: seq<seq<string>>, b: seq<seq<string>>)
    requires InPreOrder(n, a) && InPreOrder(n, b)
    requires forall p :: p in a <==> p in b
    ensures a == b
    decreases |a|
  {
    assert a == [] <==> b == [] by {
      if a != [] {
        assert a[0] in a;
      }
      if b != [] {
        assert b[0] in b;
      }
    }
    if a != [] {
      assert a == [a[0]] + a[1..] && b == [b[0]] + b[1..];
      if a[0] != b[0] {
        assert b[0] in b && a[0] in a;
        InTail(a, b[0]);
        InTail(b, a[0]);
        HeadFirst(n, a, b[0]);
        HeadFirst(n, b, a[0]);
        PreOrderAsymmetric(n, a[0], b[0]);
        assert false;
      }
      forall p | p in a[1..]
        ensures p in b[1..]
      {
        HeadFirst(n, a, p);
        InTail(b, p);
      }
      forall p | p in b[1..]
        ensures p in a[1..]
      {
        HeadFirst(n, b, p);
        InTail(a, p);
      }
      assert InPreOrder(n, a[1..]) by {
        forall k, l | 0 <= k < l < |a[1..]|
          ensures PreOrderLess(n, a[1..][k], a[1..][l])
        {
          assert a[1..][k] == a[k + 1] && a[1..][l] == a[l + 1];
        }
      }
      assert InPreOrder(n, b[1..]) by {
        forall k, l | 0 <= k < l < |b[1..]|
          ensures PreOrderLess(n, b[1..][k], b[1..][l])
        {
          assert b[1..][k] == b[k + 1] && b[1..][l] == b[l + 1];
        }
      }
      PreOrderUnique(n, a[1..], b[1..]);
    }
  }

  /** The listing is determined by what it lists and its order: any
      pre-ordered sequence of exactly the non-empty paths within the depth
      bound that resolve with nothing left over is `TreePaths`. */
  lemma TreePathsUnique(n: Node, depth: int, ps: seq<seq<string>>)
    requires DistinctKeys(n) && InPreOrder(n, ps)
    requires forall p :: p in ps <==> 1 <= |p| && (depth < 0 || |p| <= depth) && Lands(n, p)
    ensures ps == TreePaths(n, depth)
  {
    TreePathsInPreOrder(n, depth);
    forall p
      ensures p in ps <==> p in TreePaths(n, depth)
    {
      TreePathsIff(n, depth, p);
    }
    PreOrderUnique(n, ps, TreePaths(n, depth));
  }

  /** On '/'-free keys, every joined listing name splits back into its path. */
  lemma TreePathsSplitBack(m: Node, depth: int)
    ensures DistinctKeys(m) && SlashFreeKeys(m) ==>
              forall k :: 0 <= k < |TreePaths(m, depth)| ==>
                Split(JoinAll(TreePaths(m, depth))[k]) == TreePaths(m, depth)[k]
  {
    if DistinctKeys(m) && SlashFreeKeys(m) {
      var ps := TreePaths(m, depth);
      TreePathsSound(m, depth);
      forall k | 0 <= k < |ps|
        ensures Split(JoinAll(ps)[k]) == ps[k]
      {
        assert ps[k] in ps;
        SplitJoin(ps[k]);
      }
    }
  }

  /** `Tree`'s names are in pre-order too: split back into segments, each
      name comes before every name listed after it. */
  lemma TreeInPreOrder(ln: LegacyNode, path: string, depth: int, k: nat, l: nat)
    requires ReachesListable(ln.node, StartPath(path))
    requires k < l < |Tree(ln, path, depth)|
    ensures PreOrderLess(Walk(ln.node, StartPath(path), []).value.node,
                         Split(Tree(ln, path, depth)[k]), Split(Tree(ln, path, depth)[l]))
  {
    TreePathsOrdered(Walk(ln.node, StartPath(path), []).value.node, depth, k, l);
  }

  /** Walking on from the start path is walking from the node it reached. */
  lemma LandsRelative(root: Node, s: seq<string>, q: seq<string>)
    requires Walk(root, s, []).Success? && Walk(root, s, []).value.Reached?
    ensures Lands(root, s + q) <==> Lands(Walk(root, s, []).value.node, q)
  {
    WalkAppend(root, s, q, []);
    assert [] + s == s;
    WalkAtIrrelevant(Walk(root, s, []).value.node, q, s, []);
  }

  /** For paths of '/'-free segments, a name is among the joined paths
      exactly when its segments are among the paths. */
  lemma JoinAllMember(ps: seq<seq<string>>, name: string)
    requires forall k :: 0 <= k < |ps| ==> |ps[k]| >= 1
    requires forall p, k :: p in ps && 0 <= k < |p| ==> '/' !in p[k]
    ensures name in JoinAll(ps) <==> Split(name) in ps
  {
    if name in JoinAll(ps) {
      var k :| 0 <= k < |ps| && JoinAll(ps)[k] == name;
      SplitJoin(ps[k]);
    }
    if Split(name) in ps {
      var k :| 0 <= k < |ps| && ps[k] == Split(name);
      JoinSplit(name);
      assert JoinAll(ps)[k] == name;
    }
  }

  /** `Tree` names, relative to the start path: a name is listed exactly
      when the start path followed by the name's segments resolves from the
      root with nothing left over, within the depth bound. */
  lemma TreeNames(ln: LegacyNode, path: string, depth: int, name: string)
    requires Walk(ln.node, StartPath(path), []).Success?
    requires Walk(ln.node, StartPath(path), []).value.Reached?
    requires DistinctKeys(Walk(ln.node, StartPath(path), []).value.node)
    requires SlashFreeKeys(Walk(ln.node, StartPath(path), []).value.node)
    ensures name in Tree(ln, path, depth) <==>
              && (depth < 0 || |Split(name)| <= depth)
              && Lands(ln.node, StartPath(path) + Split(name))
  {
    var s := StartPath(path);
    var m := Walk(ln.node, s, []).value.node;
    var ps := TreePaths(m, depth);
    assert Tree(ln, path, depth) == JoinAll(ps);
    LandsRelative(ln.node, s, Split(name));
    TreePathsIff(m, depth, Split(name));
    TreePathsSound(m, depth);
    JoinAllMember(ps, name);
  }

  // ---------------------------------------------------------------------
  // Plain values

  /** No link anywhere in the tree. */
  predicate LinkFree(n: Node)
    decreases n
  {
    match n
    case Map(es) => forall i :: 0 <= i < |es| ==> LinkFree(es[i].1)
    case List(xs) => forall i :: 0 <= i < |xs| ==> LinkFree(xs[i])
    case Link(_) => false
    case _ => true
  }

  /** Reads a plain value back as a typed node of the same shape. */
  function FromPlain(v: PlainValue): Node
    decreases v
  {
    match v
    case PMap(ps) => Map(seq(|ps|, i requires 0 <= i < |ps| => (ps[i].0, FromPlain(ps[i].1))))
    case PList(vs) => List(seq(|vs|, i requires 0 <= i < |vs| => FromPlain(vs[i])))
    case PLink(c) => Link(c)
    case PNull => Null
    case PBool(b) => Bool(b)
    case PInt(k) => Int(k)
    case PString(t) => String(t)
    case PBytes(bs) => Bytes(bs)
  }

  /** The typed tree with every link replaced, in place, by a one-entry map
      from "/" to the identifier's string form. */
  function Unlinked(n: Node): Node
    decreases n
  {
    match n
    case Map(es) => Map(seq(|es|, i requires 0 <= i < |es| => (es[i].0, Unlinked(es[i].1))))
    case List(xs) => List(seq(|xs|, i requires 0 <= i < |xs| => Unlinked(xs[i])))
    case Link(c) => Map([("/", String(c.text))])
    case _ => n
  }

  /** Conversion loses nothing but links: reading the plain form back gives
      the tree with each link replaced by its `{"/": <cid string>}` map, with
      every scalar, key, key order and element order kept. */
  lemma {:induction false} PlainReadsBackUnlinked(n: Node)
    ensures FromPlain(ToPlain(n)) == Unlinked(n)
    decreases n
  {
    match n {
      case Map(es) =>
        var back := FromPlain(ToPlain(n)).entries;
        forall i | 0 <= i < |es|
          ensures back[i] == Unlinked(n).entries[i]
        {
          PlainReadsBackUnlinked(es[i].1);
        }
        assert back == Unlinked(n).entries;
      case List(xs) =>
        var back := FromPlain(ToPlain(n)).items;
        forall i | 0 <= i < |xs|
          ensures back[i] == Unlinked(n).items[i]
        {
          PlainReadsBackUnlinked(xs[i]);
        }
        assert back == Unlinked(n).items;
      case _ =>
    }
  }

  /** A link-free tree has nothing to replace. */
  lemma {:induction false} UnlinkedLinkFree(n: Node)
    requires LinkFree(n)
    ensures Unlinked(n) == n
    decreases n
  {
    match n {
      case Map(es) =>
        forall i | 0 <= i < |es|
          ensures Unlinked(n).entries[i] == es[i]
        {
          UnlinkedLinkFree(es[i].1);
        }
        assert Unlinked(n).entries == es;
      case List(xs) =>
        forall i | 0 <= i < |xs|
          ensures Unlinked(n).items[i] == xs[i]
        {
          UnlinkedLinkFree(xs[i]);
        }
        assert Unlinked(n).items == xs;
      case _ =>
    }
  }

  /** Conversion loses nothing on a link-free subtree. */
  lemma PlainRoundTrip(n: Node)
    requires LinkFree(n)
    ensures FromPlain(ToPlain(n)) == n
  {
    PlainReadsBackUnlinked(n);
    UnlinkedLinkFree(n);
  }
}

=== FILE: legacynode_tests.dfy ===
/** The cases of the adapter's resolve and tree tests, stated over a
    hand-built test tree. The identifiers, the value under "bar", the other
    list elements, the other root entries and where they sit, and the blocks
    are fields of `Fixture`, so each case holds for every tree of that
    shape. Two orders are fixed although the resolve cases do not observe
    them: the middle map's keys (the tree cases do observe those), and
    "plain" ahead of "linkedMap" in the root. */
module LegacyNodeTests {
  import opened Wrappers
  import opened Ipld
  import opened Segments
  import opened Legacy

  datatype Fixture = Fixture(
    leafAlpha: Cid,
    leafBeta: Cid,
    middleMapCid: Cid,
    bar: Node,
    list0: Node,
    list1: Node,
    list3: Node,
    rootBefore: seq<(string, Node)>,
    rootBetween: seq<(string, Node)>,
    rootRest: seq<(string, Node)>,
    rootBlock: Block,
    listBlock: Block,
    mapBlock: Block)

  /** {"alink": <link to leaf alpha>, "nonlink": "zoo"} */
  function Nested(t: Fixture): Node {
    Map([("alink", Link(t.leafAlpha)), ("nonlink", String("zoo"))])
  }

  /** {"foo": true, "bar": ..., "nested": Nested} */
  function MiddleMapNode(t: Fixture): Node {
    Map([("foo", Bool(true)), ("bar", t.bar), ("nested", Nested(t))])
  }

  /** A four-element list whose element 2 links to leaf beta. */
  function MiddleListNode(t: Fixture): Node {
    List([t.list0, t.list1, Link(t.leafBeta), t.list3])
  }

  /** {..., "plain": "olde string", ..., "linkedMap": <link to the middle map>, ...} */
  function RootNode(t: Fixture): Node {
    Map(t.rootBefore + [("plain", String("olde string"))] + t.rootBetween
        + [("linkedMap", Link(t.middleMapCid))] + t.rootRest)
  }

  /** No entry ahead of "plain" or "linkedMap" in the root has that key. */
  predicate RootKeysFirst(t: Fixture) {
    && (forall i :: 0 <= i < |t.rootBefore| ==> t.rootBefore[i].0 != "plain" && t.rootBefore[i].0 != "linkedMap")
    && (forall i :: 0 <= i < |t.rootBetween| ==> t.rootBetween[i].0 != "linkedMap")
  }

  lemma RootPlain(t: Fixture)
    requires RootKeysFirst(t)
    ensures KeyIndex(RootNode(t).entries, "plain") == Some(|t.rootBefore|)
    ensures RootNode(t).entries[|t.rootBefore|].1 == String("olde string")
  {
    var es := RootNode(t).entries;
    forall j | 0 <= j < |t.rootBefore|
      ensures es[j].0 != "plain"
    {
      assert es[j] == t.rootBefore[j];
    }
    KeyIndexFirst(es, "plain", |t.rootBefore|);
  }

  lemma RootLinkedMap(t: Fixture)
    requires RootKeysFirst(t)
    ensures KeyIndex(RootNode(t).entries, "linkedMap") == Some(|t.rootBefore| + 1 + |t.rootBetween|)
    ensures RootNode(t).entries[|t.rootBefore| + 1 + |t.rootBetween|].1 == Link(t.middleMapCid)
  {
    var es := RootNode(t).entries;
    var b := |t.rootBefore|;
    forall j | 0 <= j < b + 1 + |t.rootBetween|
      ensures es[j].0 != "linkedMap"
    {
      if j < b {
        assert es[j] == t.rootBefore[j];
      } else if j > b {
        assert es[j] == t.rootBetween[j - b - 1];
      }
    }
    KeyIndexFirst(es, "linkedMap", b + 1 + |t.rootBetween|);
  }

  function LegacyRoot(t: Fixture): LegacyNode { LegacyNode(t.rootBlock, RootNode(t)) }
  function LegacyList(t: Fixture): LegacyNode { LegacyNode(t.listBlock, MiddleListNode(t)) }
  function LegacyMap(t: Fixture): LegacyNode { LegacyNode(t.mapBlock, MiddleMapNode(t)) }

  // ---------------------------------------------------------------------
  // Resolve cases

  lemma ResolvesPlainString(t: Fixture)
    requires RootKeysFirst(t)
    ensures Resolve(LegacyRoot(t), ["plain"]) == Success((PString("olde string"), []))
  {
    var root := RootNode(t);
    RootPlain(t);
    WalkStep(root, "plain", [], []);
    assert ["plain"] + [] == ["plain"];
  }

  lemma ErrorsOnPathBeyondTerminalType(t: Fixture)
    requires RootKeysFirst(t)
    ensures Resolve(LegacyRoot(t), ["plain", "old"]) == Failure(NoLinksToResolve(["plain"]))
  {
    var root := RootNode(t);
    RootPlain(t);
    WalkStep(root, "plain", [], []);
    assert ["plain"] + [] == ["plain"];
    assert Walk(root, ["plain"], []) == Success(Reached(String("olde string")));
    ResolvePastScalar(LegacyRoot(t), ["plain"], ["old"]);
    assert ["plain"] + ["old"] == ["plain", "old"];
  }

  lemma StopsAtLinkWithRemaining(t: Fixture)
    requires RootKeysFirst(t)
    ensures Resolve(LegacyRoot(t), ["linkedMap", "foo"]) == Success((PLink(t.middleMapCid), ["foo"]))
  {
    var root := RootNode(t);
    RootLinkedMap(t);
    WalkStep(root, "linkedMap", [], []);
    assert ["linkedMap"] + [] == ["linkedMap"];
    assert Walk(root, ["linkedMap"], []) == Success(AtLink(t.middleMapCid, []));
    ResolveStopsAtLink(LegacyRoot(t), ["linkedMap"], ["foo"]);
    assert ["linkedMap"] + ["foo"] == ["linkedMap", "foo"];
  }

  lemma ResolvesArray(t: Fixture)
    ensures Resolve(LegacyList(t), ["2"]) == Success((PLink(t.leafBeta), []))
  {
    var n := MiddleListNode(t);
    assert NatToString(2) == "2";
    ChildOfList(n.items, 2, []);
    WalkStep(n, "2", [], []);
    assert ["2"] + [] == ["2"];
  }

  lemma ResolvesOtherTypes(t: Fixture)
    ensures Resolve(LegacyMap(t), ["foo"]) == Success((PBool(true), []))
  {
    var n := MiddleMapNode(t);
    assert KeyIndex(n.entries, "foo") == Some(0);
    WalkStep(n, "foo", [], []);
    assert ["foo"] + [] == ["foo"];
  }

  /** Resolving "nested" reaches the nested map. */
  lemma WalkToNested(t: Fixture)
    ensures Walk(MiddleMapNode(t), ["nested"], []) == Success(Reached(Nested(t)))
  {
    var n := MiddleMapNode(t);
    var es := n.entries;
    assert es[0].0 != "nested" && es[1].0 != "nested" && es[2].0 == "nested";
    assert KeyIndex(es, "nested") == Some(2);
    WalkStep(n, "nested", [], []);
    assert ["nested"] + [] == ["nested"];
  }

  lemma ResolvesComplexTypes(t: Fixture)
    ensures Resolve(LegacyMap(t), ["nested"]) ==
      Success((PMap([("alink", PMap([("/", PString(t.leafAlpha.text))])), ("nonlink", PString("zoo"))]), []))
  {
    WalkToNested(t);
    var v := ToPlain(Nested(t));
    assert ToPlain(Link(t.leafAlpha)) == PMap([("/", PString(t.leafAlpha.text))]);
    assert ToPlain(String("zoo")) == PString("zoo");
    assert v.entries[0] == ("alink", PMap([("/", PString(t.leafAlpha.text))]));
    assert v.entries[1] == ("nonlink", PString("zoo"));
    assert v.entries == [("alink", PMap([("/", PString(t.leafAlpha.text))])), ("nonlink", PString("zoo"))];
  }

  // ---------------------------------------------------------------------
  // Tree cases

  /** A child with no children of its own is listed by its name alone. */
  lemma LeafEntry(n: Node, i: nat, depth: int)
    requires i < ChildCount(n) && depth != 0 && ChildCount(ChildNode(n, i)) == 0
    ensures EntryListing(n, i, depth) == [[ChildName(n, i)]]
  {
    assert TreePaths(ChildNode(n, i), Deeper(depth)) == [];
  }

  /** Both children of `Nested` are listed by their bare names. */
  lemma NestedPaths(t: Fixture)
    ensures TreePaths(Nested(t), -1) == [["alink"], ["nonlink"]]
  {
    var nested := Nested(t);
    LeafEntry(nested, 0, -1);
    LeafEntry(nested, 1, -1);
    ListingStep(nested, 0, -1);
    ListingStep(nested, 1, -1);
    assert ListingFrom(nested, 2, -1) == [];
  }

  lemma ListPaths(t: Fixture)
    requires ChildCount(t.list0) == 0 && ChildCount(t.list1) == 0 && ChildCount(t.list3) == 0
    ensures TreePaths(MiddleListNode(t), -1) ==
      [[NatToString(0)], [NatToString(1)], [NatToString(2)], [NatToString(3)]]
  {
    var n := MiddleListNode(t);
    LeafEntry(n, 0, -1);
    LeafEntry(n, 1, -1);
    LeafEntry(n, 2, -1);
    LeafEntry(n, 3, -1);
    ListingStep(n, 0, -1);
    ListingStep(n, 1, -1);
    ListingStep(n, 2, -1);
    ListingStep(n, 3, -1);
    assert ListingFrom(n, 4, -1) == [];
  }

  lemma TreeResolvesArray(t: Fixture)
    requires ChildCount(t.list0) == 0 && ChildCount(t.list1) == 0 && ChildCount(t.list3) == 0
    ensures Tree(LegacyList(t), "", -1) == ["0", "1", "2", "3"]
  {
    ListPaths(t);
    assert NatToString(0) == "0" && NatToString(1) == "1" && NatToString(2) == "2" && NatToString(3) == "3";
  }

  lemma TreeResolveToDepth(t: Fixture)
    ensures Tree(LegacyMap(t), "", 1) == ["foo", "bar", "nested"]
  {
    var n := MiddleMapNode(t);
    TreePathsDepthOne(n);
    assert TreePaths(n, 1) == [["foo"], ["bar"], ["nested"]];
  }

  /** "nested" is listed, then its two children under "nested/". */
  lemma NestedEntry(t: Fixture)
    ensures EntryListing(MiddleMapNode(t), 2, -1) == [["nested"], ["nested", "alink"], ["nested", "nonlink"]]
  {
    NestedPaths(t);
    assert EntryListing(MiddleMapNode(t), 2, -1) == [["nested"]] + Prefixed("nested", [["alink"], ["nonlink"]]);
    var pre := Prefixed("nested", [["alink"], ["nonlink"]]);
    assert pre[0] == ["nested"] + ["alink"] == ["nested", "alink"];
    assert pre[1] == ["nested"] + ["nonlink"] == ["nested", "nonlink"];
    assert pre == [["nested", "alink"], ["nested", "nonlink"]];
  }

  lemma MiddleMapPaths(t: Fixture)
    requires ChildCount(t.bar) == 0
    ensures TreePaths(MiddleMapNode(t), -1) == [["foo"], ["bar"], ["nested"], ["nested", "alink"], ["nested", "nonlink"]]
  {
    var n := MiddleMapNode(t);
    LeafEntry(n, 0, -1);
    LeafEntry(n, 1, -1);
    NestedEntry(t);
    ListingStep(n, 0, -1);
    ListingStep(n, 1, -1);
    ListingStep(n, 2, -1);
    assert ListingFrom(n, 3, -1) == [];
  }

  lemma TreeResolveNested(t: Fixture)
    requires ChildCount(t.bar) == 0
    ensures Tree(LegacyMap(t), "", -1) == ["foo", "bar", "nested", "nested/alink", "nested/nonlink"]
  {
    MiddleMapPaths(t);
    var ps := TreePaths(MiddleMapNode(t), -1);
    assert Join(ps[3]) == "nested/alink";
    assert Join(ps[4]) == "nested/nonlink";
  }

  lemma TreeResolvesWithStartingPath(t: Fixture)
    ensures Tree(LegacyMap(t), "nested", -1) == ["alink", "nonlink"]
  {
    var n := MiddleMapNode(t);
    var nested := Nested(t);
    SplitSlashFree("nested");
    assert StartPath("nested") == ["nested"];
    WalkToNested(t);
    NestedPaths(t);
  }
}

=== FILE: segments.dfy ===
/** Path segments as strings: the decimal numerals that name list elements
    and the '/'-separated form of a whole path. */
module Segments {
  import opened Wrappers

  /** The numeral character for one decimal digit. */
  function Digit(d: nat): (c: char)
    requires d < 10
    ensures '0' <= c <= '9'
  {
    (48 + d) as char
  }

  predicate IsDigit(c: char) {
    '0' <= c <= '9'
  }

  predicate AllDigits(s: string) {
    forall i :: 0 <= i < |s| ==> IsDigit(s[i])
  }

  /** A base-10 numeral with no sign and no leading zero ("0" itself excepted). */
  predicate IsCanonicalNumeral(s: string) {
    && |s| >= 1
    && AllDigits(s)
    && (s[0] == '0' ==> |s| == 1)
  }

  /** The base-10 name of a list index, as `Tree` prints it. */
  function NatToString(n: nat): (s: string)
    ensures IsCanonicalNumeral(s)
    ensures s[0] == '0' <==> n == 0
    decreases n
  {
    if n < 10 then [Digit(n)] else NatToString(n / 10) + [Digit(n % 10)]
  }

  /** The value of a string of decimal digits, most significant first. */
  function DigitsValue(s: string): nat
    requires AllDigits(s)
    decreases |s|
  {
    if s == [] then 0
    else DigitsValue(s[..|s| - 1]) * 10 + (s[|s| - 1] as int - '0' as int)
  }

  /** Reads a list-index segment; `None` when it is not a canonical numeral. */
  function ParseIndex(s: string): (r: Option<nat>)
    ensures r.Some? <==> IsCanonicalNumeral(s)
  {
    if IsCanonicalNumeral(s) then Some(DigitsValue(s)) else None
  }

  lemma {:induction false} DigitsValueOfNatToString(n: nat)
    ensures DigitsValue(NatToString(n)) == n
    decreases n
  {
    if n >= 10 {
      var a := NatToString(n / 10);
      var s := a + [Digit(n % 10)];
      assert s[..|s| - 1] == a;
      DigitsValueOfNatToString(n / 10);
    }
  }

  /** A numeral that does not start with '0' denotes a positive number. */
  lemma {:induction false} DigitsValuePositive(s: string)
    requires |s| >= 1 && AllDigits(s) && s[0] != '0'
    ensures DigitsValue(s) >= 1
    decreases |s|
  {
    if |s| > 1 {
      var a := s[..|s| - 1];
      assert a[0] == s[0];
      DigitsValuePositive(a);
    }
  }

  lemma {:induction false} NatToStringOfDigitsValue(s: string)
    requires IsCanonicalNumeral(s)
    ensures NatToString(DigitsValue(s)) == s
    decreases |s|
  {
    if |s| > 1 {
      var a := s[..|s| - 1];
      var d := s[|s| - 1] as int - '0' as int;
      assert a[0] == s[0];
      DigitsValuePositive(a);
      NatToStringOfDigitsValue(a);
      var v := DigitsValue(s);
      assert v == DigitsValue(a) * 10 + d;
      assert v / 10 == DigitsValue(a) && v % 10 == d;
      assert Digit(d) == s[|s| - 1];
      assert s == a + [s[|s| - 1]];
    }
  }

  /** A segment selects list element `k` exactly when it is `k`'s own
      decimal name: printing and parsing indices are inverse. */
  lemma ParseIndexIff(s: string, k: nat)
    ensures ParseIndex(s) == Some(k) <==> s == NatToString(k)
  {
    if s == NatToString(k) {
      DigitsValueOfNatToString(k);
    }
    if ParseIndex(s) == Some(k) {
      NatToStringOfDigitsValue(s);
    }
  }

  /** The number of '/' characters in `s`. */
  function Slashes(s: string): nat
    decreases |s|
  {
    if s == [] then 0 else (if s[0] == '/' then 1 else 0) + Slashes(s[1..])
  }

  /** Splits at every '/', keeping empty pieces: "" gives [""], "a//b" gives ["a", "", "b"]. */
  function Split(s: string): (r: seq<string>)
    ensures |r| == Slashes(s) + 1
    ensures forall i :: 0 <= i < |r| ==> '/' !in r[i]
    decreases |s|
  {
    if s == [] then [""]
    else
      var rest := Split(s[1..]);
      if s[0] == '/' then [""] + rest
      else [[s[0]] + rest[0]] + rest[1..]
  }

  /** Joins segments with '/' between consecutive ones. */
  function Join(ps: seq<string>): string
    requires |ps| >= 1
    decreases |ps|
  {
    if |ps| == 1 then ps[0] else ps[0] + "/" + Join(ps[1..])
  }

  /** Splitting and re-joining gives the string back. */
  lemma {:induction false} JoinSplit(s: string)
    ensures Join(Split(s)) == s
    decreases |s|
  {
    if s != [] {
      var rest := Split(s[1..]);
      JoinSplit(s[1..]);
      if s[0] == '/' {
        assert ([""] + rest)[1..] == rest;
        assert s == "/" + s[1..];
      } else if |rest| == 1 {
        assert s == [s[0]] + s[1..];
      } else {
        var r := [[s[0]] + rest[0]] + rest[1..];
        assert r[1..] == rest[1..];
        assert Join(rest) == rest[0] + "/" + Join(rest[1..]);
        assert s == [s[0]] + s[1..];
      }
    }
  }

  lemma {:induction false} SplitSlashFree(a: string)
    requires '/' !in a
    ensures Split(a) == [a]
    decreases |a|
  {
    if a != [] {
      assert '/' !in a[1..];
      SplitSlashFree(a[1..]);
      assert [a[0]] + a[1..] == a;
    }
  }

  lemma {:induction false} SplitAfterSegment(a: string, t: string)
    requires '/' !in a
    ensures Split(a + "/" + t) == [a] + Split(t)
    decreases |a|
  {
    var s := a + "/" + t;
    if a == [] {
      assert s == "/" + t && s[1..] == t;
    } else {
      assert s[1..] == a[1..] + "/" + t;
      assert '/' !in a[1..];
      SplitAfterSegment(a[1..], t);
      assert [a[0]] + a[1..] == a;
    }
  }

  /** Joining slash-free segments and splitting again gives the segments back. */
  lemma {:induction false} SplitJoin(ps: seq<string>)
    requires |ps| >= 1
    requires forall i :: 0 <= i < |ps| ==> '/' !in ps[i]
    ensures Split(Join(ps)) == ps
    decreases |ps|
  {
    if |ps| == 1 {
      SplitSlashFree(ps[0]);
    } else {
      SplitJoin(ps[1..]);
      SplitAfterSegment(ps[0], Join(ps[1..]));
      assert [ps[0]] + ps[1..] == ps;
    }
  }
}

=== FILE: wrappers.dfy ===
/** Option and Result types shared by the other modules. */
module Wrappers {

  /** A value that may be absent. */
  datatype Option<+T> = None | Some(value: T)

  /** Either a computed value or the error that prevented it (a Go `(T, error)` pair). */
  datatype Result<+T, +E> = Success(value: T) | Failure(error: E)
}
